=== FILE: README.md ===
# statsc relay, modelled in Dafny

statsc relays browser metrics to a StatsD backend. Its browser client
(`client.js`) collects operation tuples such as `['g', 'mem', 42, 1]` in a
queue. A flush cleans the queue, writes it as JSON after the server address in
a script-tag URL, and empties it. The node server (`lib/server.js`) decodes
the batch and checks each operation against a fixed, ordered list of checks.
It resolves the one-letter method code through its `methods` table and
forwards the operation to the statistik backend, then bumps
`client.stats.collected`.

The model is functional. JavaScript values are `Values.Value`. This is the
JSON values plus `undefined`, which only client tuples hold. The client is an
immutable `StatsClient.Client` (address and queue). The emit calls and the
flush are functions on it, and the flush returns the payload it would hand
to the transport. The backend is the trace of `Server.Call`s that processing
makes. `Routing.Handle` is the request handler after percent-decoding, with
`JSON.parse` as a parameter. `Relay` joins the halves: emit calls, a flush,
and the server's processing of the flushed batch.

Behaviour the code has and the model keeps, where the code differs from what it
evidently intends:

- The catch inside `processOpts` (lib/server.js:95) calls `res.end`, but `res`
  is not in scope there. So a rejected operation raises a ReferenceError. The
  handler's catch writes that error's text instead of the validation message.
  The message is observable from `receive` (`Server.Receive`) but never in
  the HTTP body (`Routing.ValidationMessageHidden`). Operations before the
  rejected one have already been dispatched.
- `_cleanQueue` splices inside a loop that still advances `j`. The entry that
  slides into slot `j` is never examined, so a run of k nullish entries loses
  only ⌈k/2⌉ of them (`Compaction.RemovedPerRun`). `gauge(stat)` with value
  and sample rate both omitted therefore reaches the server as
  `["g", stat, null]` and is rejected (`Relay.GaugeWithoutValueRejected`).
  `gauge(stat, undefined, rate)` reaches the backend as `gauge(stat, rate)`.
- GET wraps `res.end` with `JSON.stringify`, so its texts go out as JSON
  strings. POST and other methods write them raw (`Routing.Body`).
- A batch that is not an array goes through `ops.length`. null and undefined
  throw a TypeError. A string is walked character by character: a non-empty
  one is rejected at its first character, and an empty one gives "OK".
  Numbers, booleans and objects dispatch nothing and give "OK".
- The comment on `connect` (client.js:17) names port 8126, but the address
  the client starts with is `http://localhost:8127/` (client.js:12).
  `StatsClient.DefaultAddr` follows the code.
- Durations from `timing` and `timer` are clock differences. Nothing makes
  them non-negative, and the model does not claim it.

## Model

| member | source | states |
|---|---|---|
| Server.MethodOf | lib/server.js:20-26 | exactly the five codes of the table resolve; each resolves to the operation whose code it is; every other string resolves to nothing |
| Server.CodeRoundTrip | lib/server.js:20-26 | each operation's code resolves back to that operation |
| Server.Resolve | lib/server.js:130-137 | the in-order scan of the `methods` object finds a code exactly when the code resolves, and yields that operation's backend method name |
| Server.Receive | lib/server.js:110-138 | an operation is accepted exactly when it fits the grammar: an array of 2–4 entries, string method and stat, positions 2 and 3 numeric or absent, known code. A rejection names the value at the position its check inspects |
| Server.Accepted | lib/server.js:129-142 | an accepted operation makes the call its code names with `op[1..]` as arguments, and then increments `client.stats.collected` |
| Server.FirstFailingCheckDecides | lib/server.js:112-138 | the checks run in a fixed order: the reported error is the first failing check, all checks before it pass, and an operation passing all seven is accepted |
| Server.RejectionExamples | lib/server.js:112-138 | the documented rejections, including a JSON null at positions 2 and 3; `["x", 2]` is reported as a bad stat, not an unsupported method |
| Server.RunStopsAtFirstRejection | lib/server.js:90-98 | `Run`, the loop over the batch: processing completes exactly when every operation is well formed, and then makes all their calls in order. Otherwise it stops at the first rejected operation, having made the calls of the operations before it and no others |
| Server.RunAppend | lib/server.js:90-98 | processing a batch of well-formed operations followed by more is processing the first part, then the rest, with positions shifted |
| Server.NothingAfterRejection | lib/server.js:90-98 | whatever follows the rejected operation makes no difference to the outcome |
| Server.ProcessOpts | lib/server.js:90-95 | an array batch is processed operation by operation; null or undefined fail on `.length`; a non-empty string is rejected at its first character; any other non-array dispatches nothing and completes |
| Routing.Handle | lib/server.js:39-88 | the status is always 200; OPTIONS gets no body and no JSON content type; a GET for the favicon gets an empty body and no calls; any other GET whose stripped URL does not start with '[' gets the JSON string "File serving not supported" and no calls; a method other than OPTIONS, GET or POST gets the raw "Only GET or POST supported"; backend calls happen only for GET and POST |
| Routing.StripSlashes | lib/server.js:60 | no '/' is left, the URL never grows, and every other character occurs exactly as often as before |
| Routing.StripSlashesAppend | lib/server.js:60 | stripping a concatenation is concatenating the stripped parts, so the global replace works character by character |
| Routing.StripSlashesIdentity | lib/server.js:60 | stripping leaves a URL unchanged exactly when it holds no '/' |
| Routing.GetIgnoresSlashes | lib/server.js:60-62 | GET URLs that differ only in '/' characters, those inside stat names included, are handled identically |
| Routing.ReportsOkExactlyWhenProcessed | lib/server.js:64-83 | the body says "OK" exactly when the request carried a batch text that parsed and every operation in it was dispatched |
| Routing.HandleRunsPipeline | lib/server.js:64-83 | a GET whose stripped URL starts with '[' (other than the favicon) and every POST write exactly the text and make exactly the calls of parsing and processing their batch text; the GET writes that text as a JSON string, the POST writes it raw |
| Routing.PipelineOk | lib/server.js:64-83 | `Pipeline`, the parse-and-process step with its catch: the text is "OK" exactly when the batch text parsed and processing completed; a syntax error, a rejection and a missing length each give a text other than "OK" |
| Routing.PipelineFailuresDiffer | lib/server.js:64-83 | the three failures give pairwise different texts: a syntax error's starts with 'S', a rejection's with 'R' and a missing length's with 'T', each exactly in its own case |
| Routing.ValidationMessageHidden | lib/server.js:95 | when an operation is rejected, the body is the ReferenceError text and never the validation message `receive` threw, and the calls made before it stand |
| Routing.MessageIsNotReferenceError | lib/server.js:112-138 | none of the seven validation messages `receive` throws (`Server.Message`) is the ReferenceError text |
| StatsClient.Connect | client.js:22-24 | the address is replaced and the queue untouched |
| StatsClient.Send | client.js:140 | exactly one tuple is appended at the end; existing entries and the address are unchanged |
| StatsClient.Increment | client.js:32-34 | queues `['i', stat, sampleRate]` and nothing else |
| StatsClient.Decrement | client.js:42-44 | queues `['d', stat, sampleRate]` and nothing else |
| StatsClient.Gauge | client.js:53-55 | queues `['g', stat, value, sampleRate]` and nothing else |
| StatsClient.Timing | client.js:69-81 | a number is queued as the duration; a Date gives now minus the date; a function gives the clock after it ran minus the clock before; any other kind queues nothing |
| StatsClient.StartTimer | client.js:93-94 | the timer captures the clock reading at the call, with the stat and sample rate |
| StatsClient.Stop | client.js:96-98 | calling the returned closure queues one 't' tuple measured from the captured start |
| StatsClient.StopTwice | client.js:93-99 | two calls of the closure queue two tuples, both measured from the same start |
| StatsClient.Flush | client.js:111-128 | an empty queue gives no payload and no change. Otherwise exactly one payload goes to the current address, as a JSON array with one entry per queued tuple, and the queue is emptied |
| StatsClient.FlushedTuples | client.js:104-117 | each entry of the batch is the encoding of its queued tuple after the splice-and-skip clean: it keeps every entry that is not nullish, in order and encoded, and is shorter by ⌈k/2⌉ for each maximal run of k nullish entries |
| StatsClient.FlushVerbatim | client.js:111-128 | a queue of JSON tuples without null or undefined entries is sent verbatim |
| StatsClient.FlushUsesConnectedAddress | client.js:22-24 | a flush after `connect(addr)` sends the same batch to `addr` |
| StatsClient.SendAll | client.js:140 | a run of `send` calls appends the tuples in call order and leaves the address alone |
| StatsClient.UnconnectedFlushGoesToDefault | client.js:12 | without `connect`, the first flush goes to `http://localhost:8127/` with one entry per tuple sent |
| StatsClient.FlushTwice | client.js:113 | a flush right after a flush sends nothing |
| Compaction.CleanTuple | client.js:105-107 | the splice-and-skip inner loop computes `SkipClean`: a nullish entry is dropped and its successor is kept without being examined |
| Compaction.CleanQueue | client.js:103-109 | the queue keeps its length and order, each tuple is cleaned on its own, and the loop computes `Clean` |
| Compaction.SkipClean | client.js:104-107 | cleaning never lengthens a tuple |
| Compaction.CleanKeepsPresent | client.js:106 | every entry that is not nullish survives, in relative order (0, "" and false are not nullish under `== null`) |
| Compaction.CleanSeparatedNullish | client.js:104-107 | a tuple with no two adjacent nullish entries comes out as exactly its non-nullish entries |
| Compaction.RunHalved | client.js:104-107 | a leading run of k nullish entries leaves exactly its second, fourth, … entries (⌊k/2⌋ of them), followed by the rest of the tuple cleaned as if on its own |
| Compaction.RemovedPerRun | client.js:104-107 | the number of entries removed is the sum of ⌈k/2⌉ over the maximal nullish runs of lengths k |
| Values.Encode | client.js:117 | the encoded value holds no `undefined`, and an entry becomes null exactly when it was nullish |
| Values.EncodeFixesWire | client.js:117 | a value with no `undefined` inside is encoded as itself |
| Values.PresentEncodeAll | client.js:117 | the present entries of an encoded tuple are the encoded present entries |
| Relay.Perform | client.js:32-55 | each emit call queues its tuple, led by the code that the server's table resolves to the intended operation |
| Relay.PerformAllQueues | client.js:140 | a sequence of emit calls queues one tuple per call, in call order |
| Relay.GivenPresent | client.js:103-109 | for a call with numeric or omitted optional arguments, except a gauge missing both, the optional entries that survive cleaning are exactly the arguments it was given |
| Relay.CleanedTuple | client.js:103-109 | cleaning such a call's tuple leaves its code, its stat and the arguments it was given |
| Relay.WiredIsWire | client.js:117 | the cleaned tuple of such a call holds no undefined, so encoding leaves it as it is |
| Relay.WiredAccepted | lib/server.js:110-143 | the server accepts a deliverable call's cleaned tuple and makes the intended call with the arguments given, then the counter |
| Relay.OneEmitDelivered | lib/server.js:110-143 | a call with numeric or omitted optional arguments, except a gauge missing both, loses exactly its omitted arguments to cleaning. The server accepts it and makes the intended call with the given arguments, then the counter |
| Relay.DeliveredInOrder | lib/server.js:90-98 | when the server processes the flushed batch value, emit calls flushed from an empty queue become the matching backend calls in call order, each followed by the counter; the queue is emptied and the payload goes to the client's address |
| Relay.GaugeWithoutValueRejected | client.js:53-55 | `gauge(stat)` with value and sample rate omitted reaches the server as `["g", stat, null]` and is rejected at position 2; over HTTP the body is the ReferenceError text |
| Relay.BareGaugeFlushed | client.js:103-117 | after `gauge(stat)` on an empty queue, the flushed batch is `[["g", stat, null]]` |

## Left out

- DOM script-tag transport (client.js:112, 116-124): I/O. A flush yields the payload value instead.
- `setInterval` scheduling (client.js:138): timer plumbing. A flush is an explicit step.
- The wall clock (`new Date()`, `fromNow`): clock readings are parameters.
- The timed function's own effects: a function that throws queues nothing, and one that emits queues before the 't' tuple. Neither is modelled; the function is an opaque step.
- Text of `JSON.stringify`, `JSON.parse` and `decodeURIComponent`: library code. Values stand for texts, `parse` is a parameter, and error messages keep the offending value, not its text.
- A malformed percent-encoding in a GET URL: `decodeURIComponent` throws outside the try (lib/server.js:60), which the handler does not catch.
- statistik and `setAddress` (lib/server.js:5-6, 151-153): foreign code, replaced by the call trace. A backend method that throws is not modelled.
- CORS headers and POST chunk buffering (lib/server.js:42-45, 72-76): HTTP plumbing. The POST body is given whole.
- Module export glue (client.js:161-166, lib/server.js:180).
- Routing.NoLengthText: follows the wording of V8 9.3 and later (Node 16.9 and later). Older engines word the TypeError differently; the model only relies on it starting with 'T'.
- JavaScript floating point: numbers are only checked with `typeof`, so they are `int`.
- Server.ProcessOpts: an object batch with a numeric `length` member would be walked by index keys. The model treats every object as having no length.
- StatsClient.Send: takes an array. A null or undefined tuple makes `_cleanQueue` throw on `.length` (client.js:105); other non-arrays pass through it and are sent as they are, to be rejected by the server's array check. Neither is modelled.
- StatsClient.Send: queues a copy of the tuple's values. The code queues the caller's array by reference (client.js:140) and `_cleanQueue` splices it in place (client.js:106). So an array sent twice is cleaned twice, and a change made to it after `send` shows up in the batch. The emit calls build a fresh array each time, so the `Relay` lemmas are unaffected.
- In-place rewriting of `op[0]` and `op.splice(1)` inside `receive`: not observable outside it, so arguments are read off the unmodified operation.
- Relay.DeliveredInOrder: covers string stats and numeric-or-omitted optional arguments only. Other argument kinds reach the server and are judged by `Server.Receive`.
- Relay.DeliveredInOrder: takes the flushed value as the batch the server parses, as a POST body would deliver it. The client's own transport is a GET URL (client.js:117), and GET strips every '/' from the URL (lib/server.js:60), so `increment("api/hits")` reaches the backend as `apihits` (`Routing.GetIgnoresSlashes`). The lemma does not promise the stat survives a GET.

=== FILE: client.dfy ===
/**
 * The client half of the relay (client.js): the queue of operation tuples,
 * the emit calls that append to it, `connect`, and the flush step `_send`
 * (also exposed as `forceSend`). The script-tag transport is replaced by the
 * payload the flush hands to it; clock readings are parameters.
 */
module StatsClient {

  import opened Wrappers
  import opened Values
  import Compaction

  /** The client's state: the server address and the pending tuples, oldest first. */
  datatype Client = Client(addr: string, queue: seq<seq<Value>>)

  const DefaultAddr := "http://localhost:8127/"

  /** The state the script starts in. */
  const Initial := Client(DefaultAddr, [])

  /** `statsc.connect`: later flushes go to `addr`; pending tuples stay. */
  function Connect(c: Client, addr: string): (r: Client)
    ensures r.addr == addr && r.queue == c.queue
  {
    Client(addr, c.queue)
  }

  /** `statsc.send`: appends one tuple at the end of the queue. */
  function Send(c: Client, data: seq<Value>): (r: Client)
    ensures r.addr == c.addr
    ensures |r.queue| == |c.queue| + 1
    ensures r.queue[..|c.queue|] == c.queue
    ensures r.queue[|c.queue|] == data
  {
    Client(c.addr, c.queue + [data])
  }

  /** True when `r` is `c` with just `t` appended to its queue. */
  predicate Appended(c: Client, r: Client, t: seq<Value>) {
    r.addr == c.addr && r.queue == c.queue + [t]
  }

  /** `statsc.increment`: queues ['i', stat, sampleRate]; an omitted argument is undefined. */
  function Increment(c: Client, stat: Value, sampleRate: Value): (r: Client)
    ensures Appended(c, r, [JStr("i"), stat, sampleRate])
  {
    Send(c, [JStr("i"), stat, sampleRate])
  }

  /** `statsc.decrement`: queues ['d', stat, sampleRate]. */
  function Decrement(c: Client, stat: Value, sampleRate: Value): (r: Client)
    ensures Appended(c, r, [JStr("d"), stat, sampleRate])
  {
    Send(c, [JStr("d"), stat, sampleRate])
  }

  /** `statsc.gauge`: queues ['g', stat, value, sampleRate]. */
  function Gauge(c: Client, stat: Value, value: Value, sampleRate: Value): (r: Client)
    ensures Appended(c, r, [JStr("g"), stat, value, sampleRate])
  {
    Send(c, [JStr("g"), stat, value, sampleRate])
  }

  /** The second argument of `statsc.timing`: a plain value, a Date, or a function to time. */
  datatype TimeArg = Plain(v: Value) | Date(at: int) | Thunk

  /**
   * `statsc.timing`. A number is queued as the duration; a Date gives the
   * clock reading `now` minus the date; a function is run between the
   * readings `before` and `now`, whose difference is queued. Anything else
   * queues nothing. Durations are not claimed to be non-negative.
   */
  function Timing(c: Client, stat: Value, time: TimeArg, sampleRate: Value, before: int, now: int): (r: Client)
    ensures time.Plain? && time.v.JNum? ==> Appended(c, r, [JStr("t"), stat, time.v, sampleRate])
    ensures time.Date? ==> Appended(c, r, [JStr("t"), stat, JNum(now - time.at), sampleRate])
    ensures time.Thunk? ==> Appended(c, r, [JStr("t"), stat, JNum(now - before), sampleRate])
    ensures time.Plain? && !time.v.JNum? ==> r == c
  {
    match time
    case Plain(v) => if v.JNum? then Send(c, [JStr("t"), stat, v, sampleRate]) else c
    case Date(at) => Send(c, [JStr("t"), stat, JNum(now - at), sampleRate])
    case Thunk => Send(c, [JStr("t"), stat, JNum(now - before), sampleRate])
  }

  /** The closure `statsc.timer` returns: the stat, the sample rate and the start it captured. */
  datatype Timer = Timer(stat: Value, sampleRate: Value, start: int)

  /** `statsc.timer`: captures the clock reading `now` as the start; queues nothing. */
  function StartTimer(stat: Value, sampleRate: Value, now: int): (t: Timer)
    ensures t.start == now && t.stat == stat && t.sampleRate == sampleRate
  {
    Timer(stat, sampleRate, now)
  }

  /** Calling the closure at clock reading `now`: queues a 't' tuple measured from the captured start. */
  function Stop(c: Client, t: Timer, now: int): (r: Client)
    ensures Appended(c, r, [JStr("t"), t.stat, JNum(now - t.start), t.sampleRate])
  {
    Send(c, [JStr("t"), t.stat, JNum(now - t.start), t.sampleRate])
  }

  /** Every call of the closure measures from the same start; nothing is reset between calls. */
  lemma StopTwice(c: Client, t: Timer, now1: int, now2: int)
    ensures Stop(Stop(c, t, now1), t, now2).queue ==
      c.queue + [[JStr("t"), t.stat, JNum(now1 - t.start), t.sampleRate],
                 [JStr("t"), t.stat, JNum(now2 - t.start), t.sampleRate]]
  {
  }

  /** The value `JSON.stringify` is given: the queue as an array of arrays. */
  function QueueValue(q: seq<seq<Value>>): Value {
    JArr(seq(|q|, i requires 0 <= i < |q| => JArr(q[i])))
  }

  /** What the transport is handed: the address and the batch whose JSON text follows it in the URL. */
  datatype Payload = Payload(addr: string, batch: Value)

  /** The state after a flush and the payload it emitted, if any. */
  datatype Flushed = Flushed(client: Client, payload: Option<Payload>)

  /**
   * `statsc._send` (and `statsc.forceSend`, the same function): with an
   * empty queue nothing happens; otherwise the queue is cleaned, encoded and
   * handed to the transport with the current address, and then emptied.
   */
  function Flush(c: Client): (f: Flushed)
    ensures f.client == Client(c.addr, [])
    ensures f.payload.None? <==> c.queue == []
    ensures f.payload.None? ==> f.client == c
    ensures f.payload.Some? ==>
      && f.payload.value.addr == c.addr
      && Wire(f.payload.value.batch)
      && f.payload.value.batch.JArr?
      && |f.payload.value.batch.elems| == |c.queue|
  {
    if |c.queue| == 0 then Flushed(c, None)
    else
      var cleaned := Compaction.Clean(c.queue);
      Flushed(Client(c.addr, []), Some(Payload(c.addr, Encode(QueueValue(cleaned)))))
  }

  /**
   * The batch holds the queue's tuples in queue order. Each is the encoding
   * of its tuple after the splice-and-skip clean, so it keeps all its
   * entries that are not nullish, in order and encoded, and loses ⌈k/2⌉
   * entries from each maximal run of k nullish ones.
   */
  lemma FlushedTuples(c: Client, i: nat)
    requires c.queue != [] && i < |c.queue|
    ensures var b := Flush(c).payload.value.batch;
      && b.elems[i] == Encode(JArr(Compaction.SkipClean(c.queue[i])))
      && b.elems[i].JArr?
      && |b.elems[i].elems| == |c.queue[i]| - Compaction.SumCeilHalf(Compaction.NullRuns(c.queue[i]))
      && Present(b.elems[i].elems) == EncodeAll(Present(c.queue[i]))
  {
    var t := Compaction.SkipClean(c.queue[i]);
    var b := Flush(c).payload.value.batch;
    assert b.elems[i] == Encode(JArr(t));
    PresentEncodeAll(t);
    Compaction.CleanKeepsPresent(c.queue[i]);
    Compaction.RemovedPerRun(c.queue[i]);
  }

  /** A queue of wire tuples without nullish entries is sent verbatim. */
  lemma FlushVerbatim(c: Client)
    requires c.queue != []
    requires forall i, j :: 0 <= i < |c.queue| && 0 <= j < |c.queue[i]| ==>
      Wire(c.queue[i][j]) && !Nullish(c.queue[i][j])
    ensures Flush(c).payload.value.batch == QueueValue(c.queue)
  {
    forall i | 0 <= i < |c.queue|
      ensures Compaction.SkipClean(c.queue[i]) == c.queue[i]
    {
      Compaction.CleanSeparatedNullish(c.queue[i]);
    }
    assert Compaction.Clean(c.queue) == c.queue;
    assert Wire(QueueValue(c.queue));
    EncodeFixesWire(QueueValue(c.queue));
  }

  /** A flush emits to the address of the latest `connect`. */
  lemma FlushUsesConnectedAddress(c: Client, addr: string)
    requires c.queue != []
    ensures Flush(Connect(c, addr)).payload == Some(Payload(addr, Flush(c).payload.value.batch))
  {
  }

  /** A run of `send` calls, oldest first: the tuples join the queue in call order. */
  function SendAll(c: Client, ts: seq<seq<Value>>): (r: Client)
    ensures r.addr == c.addr && r.queue == c.queue + ts
    decreases |ts|
  {
    if ts == [] then c
    else
      assert c.queue + ts == (c.queue + [ts[0]]) + ts[1..];
      SendAll(Send(c, ts[0]), ts[1..])
  }

  /**
   * A script that never calls `connect` flushes to the default address, one
   * batch entry per tuple sent.
   */
  lemma UnconnectedFlushGoesToDefault(ts: seq<seq<Value>>)
    requires ts != []
    ensures Flush(SendAll(Initial, ts)).payload.Some?
    ensures Flush(SendAll(Initial, ts)).payload.value.addr == DefaultAddr
    ensures |Flush(SendAll(Initial, ts)).payload.value.batch.elems| == |ts|
  {
  }

  /** A second flush right after a first one finds nothing to send. */
  lemma FlushTwice(c: Client)
    ensures Flush(Flush(c).client) == Flushed(Flush(c).client, None)
  {
  }
}

=== FILE: compaction.dfy ===
/**
 * `statsc._cleanQueue` (client.js): nullish entries are removed from every
 * tuple with `splice(j, 1)` inside a loop that still advances `j`, so the
 * entry that slides into slot `j` is never looked at.
 */
module Compaction {

  import opened Values

  /**
   * What the splice-and-skip loop leaves of one tuple: a nullish entry is
   * dropped and the entry right after it is kept unexamined.
   */
  function SkipClean(t: seq<Value>): (r: seq<Value>)
    ensures |r| <= |t|
  {
    if |t| == 0 then []
    else if !Nullish(t[0]) then [t[0]] + SkipClean(t[1..])
    else if |t| == 1 then []
    else [t[1]] + SkipClean(t[2..])
  }

  /** The inner loop of `_cleanQueue` on one tuple, splicing in place. */
  method CleanTuple(t: seq<Value>) returns (r: seq<Value>)
    ensures r == SkipClean(t)
  {
    r := t;
    var j := 0;
    while j < |r|
      invariant 0 <= j <= |r| + 1
      invariant j <= |r| ==> SkipClean(t) == r[..j] + SkipClean(r[j..])
      invariant j == |r| + 1 ==> SkipClean(t) == r
      decreases |r| + 1 - j
    {
      if Nullish(r[j]) {
        if j + 1 < |r| {
          SpliceStep(r, j);
        } else {
          SpliceLast(r, j);
        }
        r := r[..j] + r[j + 1..];
      } else {
        KeepStep(r, j);
      }
      j := j + 1;
    }
    if j == |r| {
      assert r[..j] == r;
    }
  }

  /** Splicing out a nullish entry: its successor slides into slot `j` and is passed over. */
  lemma SpliceStep(r: seq<Value>, j: nat)
    requires j + 1 < |r| && Nullish(r[j])
    ensures var r' := r[..j] + r[j + 1..];
      r[..j] + SkipClean(r[j..]) == r'[..j + 1] + SkipClean(r'[j + 1..])
  {
    var r' := r[..j] + r[j + 1..];
    assert r[j..][1..][1..] == r[j + 2..];
    assert r'[..j + 1] == r[..j] + [r[j + 1]];
    assert r'[j + 1..] == r[j + 2..];
  }

  lemma SpliceLast(r: seq<Value>, j: nat)
    requires j + 1 == |r| && Nullish(r[j])
    ensures r[..j] + SkipClean(r[j..]) == r[..j] + r[j + 1..]
  {
    assert r[j + 1..] == [];
  }

  lemma KeepStep(r: seq<Value>, j: nat)
    requires j < |r| && !Nullish(r[j])
    ensures r[..j] + SkipClean(r[j..]) == r[..j + 1] + SkipClean(r[j + 1..])
  {
    assert r[j..][1..] == r[j + 1..];
    assert r[..j + 1] == r[..j] + [r[j]];
  }

  /** Every tuple of the queue, cleaned; the queue keeps its length and order. */
  function Clean(q: seq<seq<Value>>): (r: seq<seq<Value>>)
    ensures |r| == |q|
  {
    seq(|q|, i requires 0 <= i < |q| => SkipClean(q[i]))
  }

  /** `statsc._cleanQueue`: the outer loop over the queue. */
  method CleanQueue(q: seq<seq<Value>>) returns (r: seq<seq<Value>>)
    ensures |r| == |q|
    ensures forall i :: 0 <= i < |q| ==> r[i] == SkipClean(q[i])
    ensures r == Clean(q)
  {
    r := q;
    var i := 0;
    while i < |r|
      invariant 0 <= i <= |r| == |q|
      invariant forall k :: 0 <= k < i ==> r[k] == SkipClean(q[k])
      invariant forall k :: i <= k < |r| ==> r[k] == q[k]
    {
      var cleaned := CleanTuple(r[i]);
      r := r[i := cleaned];
      i := i + 1;
    }
  }

  /** Cleaning keeps every entry that is not nullish, in order; 0, "" and false survive. */
  lemma {:induction false} CleanKeepsPresent(t: seq<Value>)
    ensures Present(SkipClean(t)) == Present(t)
  {
    if |t| == 0 {
    } else if !Nullish(t[0]) {
      CleanKeepsPresent(t[1..]);
      PresentAppend([t[0]], SkipClean(t[1..]));
    } else if |t| == 1 {
    } else {
      CleanKeepsPresent(t[2..]);
      PresentAppend([t[1]], SkipClean(t[2..]));
      assert t[1..][1..] == t[2..];
    }
  }

  /** No two nullish entries side by side. */
  predicate NoAdjacentNullish(t: seq<Value>) {
    forall i :: 0 <= i < |t| - 1 ==> !(Nullish(t[i]) && Nullish(t[i + 1]))
  }

  /**
   * A tuple with no two adjacent nullish entries comes out with exactly its
   * entries that are not nullish: no nullish entry is left.
   */
  lemma {:induction false} CleanSeparatedNullish(t: seq<Value>)
    requires NoAdjacentNullish(t)
    ensures SkipClean(t) == Present(t)
  {
    if |t| == 0 {
    } else if !Nullish(t[0]) {
      CleanSeparatedNullish(t[1..]);
    } else if |t| == 1 {
    } else {
      assert !Nullish(t[1]);
      assert NoAdjacentNullish(t[2..]) by {
        forall i | 0 <= i < |t[2..]| - 1 ensures !(Nullish(t[2..][i]) && Nullish(t[2..][i + 1])) {
          assert t[2..][i] == t[i + 2] && t[2..][i + 1] == t[i + 3];
        }
      }
      CleanSeparatedNullish(t[2..]);
      assert t[1..][1..] == t[2..];
    }
  }

  /** The length of the run of nullish entries `t` starts with. */
  function LeadingNullish(t: seq<Value>): (k: nat)
    ensures k <= |t|
    ensures forall i :: 0 <= i < k ==> Nullish(t[i])
    ensures k == |t| || !Nullish(t[k])
  {
    if |t| == 0 || !Nullish(t[0]) then 0
    else 1 + LeadingNullish(t[1..])
  }

  /** The lengths of the maximal runs of nullish entries of `t`, left to right. */
  function NullRuns(t: seq<Value>): seq<nat>
    decreases |t|
  {
    if |t| == 0 then []
    else if !Nullish(t[0]) then NullRuns(t[1..])
    else
      var k := LeadingNullish(t);
      [k] + NullRuns(t[k..])
  }

  /** The sum of the halves, rounded up, of the run lengths. */
  function SumCeilHalf(ks: seq<nat>): nat {
    if |ks| == 0 then 0 else (ks[0] + 1) / 2 + SumCeilHalf(ks[1..])
  }

  /** The entries at odd positions of `s`: the second, the fourth, and so on. */
  function Odds(s: seq<Value>): (r: seq<Value>)
    ensures |r| == |s| / 2
    ensures forall i :: 0 <= i < |r| ==> r[i] == s[2 * i + 1]
  {
    if |s| < 2 then [] else [s[1]] + Odds(s[2..])
  }

  /**
   * A leading run of `k` nullish entries loses its first, third, ...
   * entries and keeps the second, fourth, ... (⌊k/2⌋ of them); what follows
   * the run is cleaned as if on its own.
   */
  lemma {:induction false} RunHalved(t: seq<Value>, k: nat)
    requires k <= |t|
    requires forall i :: 0 <= i < k ==> Nullish(t[i])
    requires k == |t| || !Nullish(t[k])
    ensures SkipClean(t) == Odds(t[..k]) + SkipClean(t[k..])
  {
    if k == 0 {
      assert t[..0] == [] && t[0..] == t;
    } else if k == 1 {
      assert t[..1] == [t[0]];
      if |t| > 1 {
        assert t[1..][1..] == t[2..];
      }
    } else {
      var u := t[2..];
      assert SkipClean(t) == [t[1]] + SkipClean(u) by {
        assert Nullish(t[0]);
      }
      forall i | 0 <= i < k - 2 ensures Nullish(u[i]) {
        assert u[i] == t[i + 2];
      }
      assert k - 2 == |u| || u[k - 2] == t[k];
      RunHalved(u, k - 2);
      assert u[k - 2..] == t[k..];
      assert Odds(t[..k]) == [t[1]] + Odds(u[..k - 2]) by {
        assert t[..k][1] == t[1];
        assert t[..k][2..] == u[..k - 2];
      }
    }
  }

  /** In each maximal run of k nullish entries, cleaning removes exactly ⌈k/2⌉ of them. */
  lemma {:induction false} RemovedPerRun(t: seq<Value>)
    ensures |t| - |SkipClean(t)| == SumCeilHalf(NullRuns(t))
    decreases |t|
  {
    if |t| == 0 {
    } else if !Nullish(t[0]) {
      RemovedPerRun(t[1..]);
    } else {
      var k := LeadingNullish(t);
      RunHalved(t, k);
      assert |t[..k]| == k;
      RemovedPerRun(t[k..]);
      assert ([k] + NullRuns(t[k..]))[1..] == NullRuns(t[k..]);
    }
  }
}

=== FILE: relay.dfy ===
/**
 * The two halves together: emit calls on the client, a flush, the batch
 * value the server processes, and the backend calls `processOpts` makes.
 * `JSON.stringify` followed by `JSON.parse` is taken to yield the encoded
 * value `Values.Encode` describes. The batch is taken as it would arrive in
 * a POST body; the GET transport also strips every '/' from the URL
 * (see `Routing.GetIgnoresSlashes`).
 */
module Relay {

  import opened Wrappers
  import opened Values
  import Server
  import StatsClient
  import Compaction
  import Routing

  /** An emit call whose stat is a string; the optional arguments may be undefined. */
  datatype Emit =
    | Inc(stat: string, rate: Value)
    | Dec(stat: string, rate: Value)
    | SetGauge(stat: string, value: Value, rate: Value)
    | Time(stat: string, ms: int, rate: Value)

  /**
   * Makes the emit call on the client (a number given to `timing` reads no
   * clock). The tuple it queues starts with the code the server's table
   * resolves to the intended operation.
   */
  function Perform(c: StatsClient.Client, e: Emit): (r: StatsClient.Client)
    ensures StatsClient.Appended(c, r, Tuple(e))
    ensures Server.MethodOf(r.queue[|c.queue|][0].s) == Some(Op(e))
  {
    match e
    case Inc(s, r) =>
      assert Tuple(e) == [JStr("i"), JStr(s), r];
      StatsClient.Increment(c, JStr(s), r)
    case Dec(s, r) =>
      assert Tuple(e) == [JStr("d"), JStr(s), r];
      StatsClient.Decrement(c, JStr(s), r)
    case SetGauge(s, v, r) =>
      assert Tuple(e) == [JStr("g"), JStr(s), v, r];
      StatsClient.Gauge(c, JStr(s), v, r)
    case Time(s, ms, r) =>
      assert Tuple(e) == [JStr("t"), JStr(s), JNum(ms), r];
      StatsClient.Timing(c, JStr(s), StatsClient.Plain(JNum(ms)), r, 0, 0)
  }

  /** Makes the emit calls in order. */
  function PerformAll(c: StatsClient.Client, es: seq<Emit>): StatsClient.Client
    decreases |es|
  {
    if |es| == 0 then c else PerformAll(Perform(c, es[0]), es[1..])
  }

  /** The backend operation an emit call is meant to reach. */
  function Op(e: Emit): Server.Method {
    match e
    case Inc(_, _) => Server.Increment
    case Dec(_, _) => Server.Decrement
    case SetGauge(_, _, _) => Server.Gauge
    case Time(_, _, _) => Server.Timing
  }

  /** The arguments after the stat, as the call passes them. */
  function Optionals(e: Emit): seq<Value> {
    match e
    case Inc(_, r) => [r]
    case Dec(_, r) => [r]
    case SetGauge(_, v, r) => [v, r]
    case Time(_, ms, r) => [JNum(ms), r]
  }

  /** The tuple the emit call queues, read off the emit functions' contracts. */
  function Tuple(e: Emit): seq<Value> {
    [JStr(Server.Code(Op(e))), JStr(e.stat)] + Optionals(e)
  }

  /** An argument as the call passes it on: nothing if it was omitted. */
  function Omit(v: Value): seq<Value> {
    if v.JUndef? then [] else [v]
  }

  /** The optional arguments the call was actually given, in order. */
  function Given(e: Emit): seq<Value> {
    match e
    case Inc(_, r) => Omit(r)
    case Dec(_, r) => Omit(r)
    case SetGauge(_, v, r) => Omit(v) + Omit(r)
    case Time(_, ms, r) => [JNum(ms)] + Omit(r)
  }

  predicate NumberOrUndefined(v: Value) {
    v.JUndef? || v.JNum?
  }

  /**
   * Optional arguments are numbers or omitted, and a gauge is not missing
   * both its value and its sample rate.
   */
  predicate Deliverable(e: Emit) {
    match e
    case Inc(_, r) => NumberOrUndefined(r)
    case Dec(_, r) => NumberOrUndefined(r)
    case SetGauge(_, v, r) => NumberOrUndefined(v) && NumberOrUndefined(r) && !(v.JUndef? && r.JUndef?)
    case Time(_, _, r) => NumberOrUndefined(r)
  }

  /** The backend calls an emit call should end in: its operation with the arguments actually given, then the counter. */
  function Expected(e: Emit): seq<Server.Call> {
    [Server.Call(Op(e), [JStr(e.stat)] + Given(e)), Server.Collected]
  }

  function ExpectedAll(es: seq<Emit>): seq<Server.Call> {
    if |es| == 0 then [] else Expected(es[0]) + ExpectedAll(es[1..])
  }

  /** The client's emit calls queue one tuple each, in call order. */
  lemma {:induction false} PerformAllQueues(c: StatsClient.Client, es: seq<Emit>)
    ensures PerformAll(c, es).addr == c.addr
    ensures PerformAll(c, es).queue == c.queue + seq(|es|, i requires 0 <= i < |es| => Tuple(es[i]))
    decreases |es|
  {
    if |es| > 0 {
      var c' := Perform(c, es[0]);
      assert c'.queue == c.queue + [Tuple(es[0])] && c'.addr == c.addr;
      PerformAllQueues(c', es[1..]);
      assert seq(|es|, i requires 0 <= i < |es| => Tuple(es[i])) ==
        [Tuple(es[0])] + seq(|es[1..]|, i requires 0 <= i < |es[1..]| => Tuple(es[1..][i]));
    }
  }

  /** What one queued tuple of a deliverable call looks like once cleaned and encoded. */
  function Wired(e: Emit): Value {
    JArr([JStr(Server.Code(Op(e))), JStr(e.stat)] + Given(e))
  }

  /**
   * A deliverable call's tuple loses exactly its undefined arguments to
   * cleaning, passes encoding unchanged, and the server accepts it and makes
   * the expected calls.
   */
  lemma OneEmitDelivered(e: Emit)
    requires Deliverable(e)
    ensures Encode(JArr(Compaction.SkipClean(Tuple(e)))) == Wired(e)
    ensures Server.WellFormed(Wired(e))
    ensures Server.Receive(Wired(e)) == Ok(Expected(e))
  {
    CleanedTuple(e);
    WiredIsWire(e);
    EncodeFixesWire(Wired(e));
    WiredAccepted(e);
  }

  /** Cleaning drops exactly the omitted arguments, and what is left holds no undefined. */
  lemma CleanedTuple(e: Emit)
    requires Deliverable(e)
    ensures JArr(Compaction.SkipClean(Tuple(e))) == Wired(e)
  {
    var t := Tuple(e);
    var head := [JStr(Server.Code(Op(e))), JStr(e.stat)];
    assert Compaction.NoAdjacentNullish(t);
    Compaction.CleanSeparatedNullish(t);
    PresentAppend(head, Optionals(e));
    assert Present(head) == head;
    GivenPresent(e);
  }

  /** A deliverable call's cleaned tuple holds no undefined. */
  lemma WiredIsWire(e: Emit)
    requires Deliverable(e)
    ensures Wire(Wired(e))
  {
    var w := Wired(e).elems;
    assert forall i :: 0 <= i < |w| ==> w[i].JStr? || w[i].JNum?;
  }

  /** The entries that survive cleaning are the arguments the call was given. */
  lemma GivenPresent(e: Emit)
    requires Deliverable(e)
    ensures Present(Optionals(e)) == Given(e)
  {
    match e
    case SetGauge(_, v, r) =>
      PresentAppend([v], [r]);
      assert [v] + [r] == Optionals(e);
    case Time(_, ms, r) =>
      PresentAppend([JNum(ms)], [r]);
      assert [JNum(ms)] + [r] == Optionals(e);
    case _ =>
  }

  /** The server accepts the cleaned tuple and makes the intended call. */
  lemma WiredAccepted(e: Emit)
    requires Deliverable(e)
    ensures Server.WellFormed(Wired(e))
    ensures Server.Receive(Wired(e)) == Ok(Expected(e))
  {
    var w := Wired(e).elems;
    Server.CodeRoundTrip(Op(e));
    Server.Accepted(Wired(e));
    assert w[1..] == [JStr(e.stat)] + Given(e);
  }

  /** The batch a flush of deliverable calls emits, as the server decodes it. */
  function WiredAll(es: seq<Emit>): seq<Value> {
    seq(|es|, i requires 0 <= i < |es| => Wired(es[i]))
  }

  lemma {:induction false} DispatchedWired(es: seq<Emit>)
    requires forall i :: 0 <= i < |es| ==> Deliverable(es[i])
    ensures Server.Dispatched(WiredAll(es)) == ExpectedAll(es)
  {
    if |es| > 0 {
      var ws := WiredAll(es);
      assert ws[0] == Wired(es[0]);
      assert ws[1..] == WiredAll(es[1..]);
      OneEmitDelivered(es[0]);
      DispatchedWired(es[1..]);
    }
  }

  /**
   * Emit calls with numeric or omitted optional arguments, flushed from an
   * empty queue, become the matching backend calls in call order when the
   * server processes the flushed batch value, each followed by the
   * collection counter; the queue ends up empty and the payload goes to the
   * client's address.
   */
  lemma DeliveredInOrder(c: StatsClient.Client, es: seq<Emit>)
    requires c.queue == [] && es != []
    requires forall i :: 0 <= i < |es| ==> Deliverable(es[i])
    ensures var f := StatsClient.Flush(PerformAll(c, es));
      && f.client == StatsClient.Client(c.addr, [])
      && f.payload.Some?
      && f.payload.value.addr == c.addr
      && Server.ProcessOpts(f.payload.value.batch) == Server.Processed(ExpectedAll(es), Server.Completed)
  {
    var ws := WiredAll(es);
    FlushedWired(c, es);
    assert Server.Run(ws) == Server.Processed(ExpectedAll(es), Server.Completed) by {
      Server.RunStopsAtFirstRejection(ws);
      DispatchedWired(es);
    }
  }

  /** The batch a flush of deliverable calls emits is their wired tuples, each well formed. */
  lemma FlushedWired(c: StatsClient.Client, es: seq<Emit>)
    requires c.queue == [] && es != []
    requires forall i :: 0 <= i < |es| ==> Deliverable(es[i])
    ensures var f := StatsClient.Flush(PerformAll(c, es));
      && f.client == StatsClient.Client(c.addr, [])
      && f.payload.Some?
      && f.payload.value.addr == c.addr
      && f.payload.value.batch == JArr(WiredAll(es))
    ensures forall i :: 0 <= i < |es| ==> Server.WellFormed(WiredAll(es)[i])
  {
    var q := seq(|es|, i requires 0 <= i < |es| => Tuple(es[i]));
    assert PerformAll(c, es) == StatsClient.Client(c.addr, q) by {
      PerformAllQueues(c, es);
    }
    CleanedWired(q, es);
  }

  /** Cleaning and encoding the tuples of deliverable calls gives their wired tuples. */
  lemma CleanedWired(q: seq<seq<Value>>, es: seq<Emit>)
    requires q == seq(|es|, i requires 0 <= i < |es| => Tuple(es[i]))
    requires forall i :: 0 <= i < |es| ==> Deliverable(es[i])
    ensures Encode(StatsClient.QueueValue(Compaction.Clean(q))) == JArr(WiredAll(es))
    ensures forall i :: 0 <= i < |es| ==> Server.WellFormed(WiredAll(es)[i])
  {
    var batch := Encode(StatsClient.QueueValue(Compaction.Clean(q)));
    var ws := WiredAll(es);
    forall i | 0 <= i < |es| ensures batch.elems[i] == ws[i] && Server.WellFormed(ws[i]) {
      OneEmitDelivered(es[i]);
    }
  }

  /**
   * `gauge(stat)` with value and sample rate both omitted queues two
   * adjacent undefined entries; cleaning removes only the first, so the
   * server sees `["g", stat, null]` and rejects it at the third position.
   * Over HTTP the response hides that message behind the ReferenceError.
   */
  lemma GaugeWithoutValueRejected(c: StatsClient.Client, stat: string, parse: string -> Routing.Parsed, body: string)
    requires c.queue == []
    ensures var f := StatsClient.Flush(StatsClient.Gauge(c, JStr(stat), JUndef, JUndef));
      && f.payload.Some?
      && f.payload.value.batch == JArr([JArr([JStr("g"), JStr(stat), JNull])])
      && Server.ProcessOpts(f.payload.value.batch) == Server.Processed([], Server.Rejected(0, Server.ValueNotNumber(JNull)))
    ensures parse(body) == Routing.Parsed(JArr([JArr([JStr("g"), JStr(stat), JNull])])) ==>
      Routing.Text(Routing.Handle(Routing.Request("POST", "", body), parse).response.body) == Routing.ResNotDefined
  {
    var op := JArr([JStr("g"), JStr(stat), JNull]);
    BareGaugeFlushed(c, stat);
    assert Server.Run([op]) == Server.Processed([], Server.Rejected(0, Server.ValueNotNumber(JNull)));
  }

  /** The batch a flush sends after `gauge(stat)` on an empty queue. */
  lemma BareGaugeFlushed(c: StatsClient.Client, stat: string)
    requires c.queue == []
    ensures var f := StatsClient.Flush(StatsClient.Gauge(c, JStr(stat), JUndef, JUndef));
      && f.payload.Some?
      && f.payload.value.batch == JArr([JArr([JStr("g"), JStr(stat), JNull])])
  {
    var t := [JStr("g"), JStr(stat), JUndef, JUndef];
    assert Compaction.SkipClean(t) == [JStr("g"), JStr(stat), JUndef] by {
      assert t[1..] == [JStr(stat), JUndef, JUndef];
      assert t[1..][1..] == [JUndef, JUndef];
      assert [JUndef, JUndef][2..] == [];
      assert Compaction.SkipClean([JUndef, JUndef]) == [JUndef];
    }
    var g := StatsClient.Gauge(c, JStr(stat), JUndef, JUndef);
    assert g.queue == [t];
    assert Compaction.Clean(g.queue) == [Compaction.SkipClean(t)];
    assert Encode(JArr([JStr("g"), JStr(stat), JUndef])) == JArr([JStr("g"), JStr(stat), JNull]);
    assert StatsClient.QueueValue([Compaction.SkipClean(t)]) == JArr([JArr([JStr("g"), JStr(stat), JUndef])]);
  }
}

=== FILE: routing.dfy ===
/**
 * The request handler `statsc.http` (lib/server.js) once the URL has been
 * percent-decoded: which requests reach the batch pipeline, and the text
 * each response carries. `JSON.parse` is a parameter.
 */
module Routing {

  import opened Wrappers
  import opened Values
  import Server

  /** An HTTP request: method name, percent-decoded URL, and the fully buffered body. */
  datatype Request = Request(verb: string, url: string, body: string)

  /** What `JSON.parse` makes of a text: a value, or the message of the SyntaxError it throws. */
  datatype Parsed = Parsed(value: Value) | SyntaxError(message: string)

  /**
   * The body `res.end` writes: nothing, a text as is, or a text passed
   * through `JSON.stringify` first (the GET branch wraps `res.end` so).
   */
  datatype Body = NoBody | Raw(text: string) | Stringified(text: string)

  /** Status, whether the JSON content type was set, and the body. */
  datatype Response = Response(status: nat, json: bool, body: Body)

  /** The response together with the backend calls made while producing it. */
  datatype Handled = Handled(response: Response, calls: seq<Server.Call>)

  /**
   * The text the handler's catch writes when `processOpts` fails on an
   * operation: its own catch refers to `res`, which is not in scope there,
   * so a ReferenceError replaces the validation message.
   */
  const ResNotDefined := "ReferenceError: res is not defined"

  /** `.length` read on null or undefined, as V8 words it. */
  function NoLengthText(batch: Value): (r: string)
    ensures |r| > 0 && r[0] == 'T'
  {
    "TypeError: Cannot read properties of "
      + (if batch.JNull? then "null" else "undefined")
      + " (reading 'length')"
  }

  /** `decodeURIComponent(req.url).replace(/\//g, '')` after decoding: every '/' removed. */
  function StripSlashes(s: string): (r: string)
    ensures '/' !in r
    ensures |r| <= |s|
    ensures forall c :: c != '/' ==> multiset(r)[c] == multiset(s)[c]
  {
    if |s| == 0 then []
    else
      assert s == [s[0]] + s[1..];
      (if s[0] == '/' then [] else [s[0]]) + StripSlashes(s[1..])
  }

  /** Stripping works piece by piece, so every other character stays in place relative to the rest. */
  lemma {:induction false} StripSlashesAppend(a: string, b: string)
    ensures StripSlashes(a + b) == StripSlashes(a) + StripSlashes(b)
  {
    if |a| == 0 {
      assert a + b == b;
    } else {
      assert (a + b)[0] == a[0] && (a + b)[1..] == a[1..] + b;
      StripSlashesCons(a + b);
      StripSlashesCons(a);
      StripSlashesAppend(a[1..], b);
    }
  }

  /** One step of the strip: the first character is dropped if it is '/'. */
  lemma StripSlashesCons(s: string)
    requires |s| > 0
    ensures StripSlashes(s) == (if s[0] == '/' then [] else [s[0]]) + StripSlashes(s[1..])
  {
  }

  /** A URL is left as it is exactly when it holds no '/'. */
  lemma {:induction false} StripSlashesIdentity(s: string)
    ensures StripSlashes(s) == s <==> '/' !in s
  {
    if |s| > 0 {
      StripSlashesIdentity(s[1..]);
      if s[0] == '/' {
        assert |StripSlashes(s)| < |s| by {
          assert StripSlashes(s) == StripSlashes(s[1..]);
        }
      } else {
        assert s == [s[0]] + s[1..];
      }
    }
  }

  /** The text the handler writes for a batch text, and the calls processing it made. */
  function Pipeline(text: string, parse: string -> Parsed): (string, seq<Server.Call>) {
    match parse(text)
    case SyntaxError(m) => ("SyntaxError: " + m, [])
    case Parsed(v) =>
      var p := Server.ProcessOpts(v);
      var outcome :=
        match p.stop
        case Completed => "OK"
        case Rejected(_, _) => ResNotDefined
        case NoLength(b) => NoLengthText(b);
      (outcome, p.calls)
  }

  /** `statsc.http`. */
  function Handle(req: Request, parse: string -> Parsed): (h: Handled)
    ensures h.response.status == 200
    ensures req.verb == "OPTIONS" <==> !h.response.json
    ensures req.verb == "OPTIONS" ==> h == Handled(Response(200, false, NoBody), [])
    ensures req.verb == "GET" && StripSlashes(req.url) == "favicon.ico" ==>
      h == Handled(Response(200, true, NoBody), [])
    ensures
      && req.verb == "GET"
      && StripSlashes(req.url) != "favicon.ico"
      && (|StripSlashes(req.url)| == 0 || StripSlashes(req.url)[0] != '[')
      ==> h == Handled(Response(200, true, Stringified("File serving not supported")), [])
    ensures req.verb !in {"OPTIONS", "GET", "POST"} ==>
      h == Handled(Response(200, true, Raw("Only GET or POST supported")), [])
    ensures h.calls != [] ==> req.verb in {"GET", "POST"}
  {
    if req.verb == "OPTIONS" then Handled(Response(200, false, NoBody), [])
    else if req.verb == "GET" then
      var url := StripSlashes(req.url);
      if url == "favicon.ico" then Handled(Response(200, true, NoBody), [])
      else if |url| == 0 || url[0] != '[' then
        Handled(Response(200, true, Stringified("File serving not supported")), [])
      else
        var (text, calls) := Pipeline(url, parse);
        Handled(Response(200, true, Stringified(text)), calls)
    else if req.verb == "POST" then
      var (text, calls) := Pipeline(req.body, parse);
      Handled(Response(200, true, Raw(text)), calls)
    else Handled(Response(200, true, Raw("Only GET or POST supported")), [])
  }

  /** The batch text a request carries, if its branch runs the pipeline at all. */
  function BatchText(req: Request): Option<string> {
    if req.verb == "POST" then Some(req.body)
    else if req.verb == "GET" then
      var url := StripSlashes(req.url);
      if url != "favicon.ico" && |url| > 0 && url[0] == '[' then Some(url) else None
    else None
  }

  /** The text a body carries, empty for no body. */
  function Text(b: Body): string {
    match b
    case NoBody => ""
    case Raw(t) => t
    case Stringified(t) => t
  }

  /**
   * The response says "OK" exactly when the request carried a batch text,
   * it parsed, and every operation of the batch was dispatched.
   */
  lemma ReportsOkExactlyWhenProcessed(req: Request, parse: string -> Parsed)
    ensures Text(Handle(req, parse).response.body) == "OK" <==>
      && BatchText(req).Some?
      && parse(BatchText(req).value).Parsed?
      && Server.ProcessOpts(parse(BatchText(req).value).value).stop.Completed?
  {
    if BatchText(req).Some? {
      HandleRunsPipeline(req, parse);
      PipelineOk(BatchText(req).value, parse);
    } else if req.verb == "GET" {
      var url := StripSlashes(req.url);
      if url != "favicon.ico" {
        assert Text(Handle(req, parse).response.body) == "File serving not supported";
      }
    }
  }

  /** A request that carries a batch text gets the pipeline's text and calls. */
  lemma HandleRunsPipeline(req: Request, parse: string -> Parsed)
    requires BatchText(req).Some?
    ensures Text(Handle(req, parse).response.body) == Pipeline(BatchText(req).value, parse).0
    ensures Handle(req, parse).calls == Pipeline(BatchText(req).value, parse).1
    ensures Handle(req, parse).response.body ==
      if req.verb == "GET" then Stringified(Pipeline(BatchText(req).value, parse).0)
      else Raw(Pipeline(BatchText(req).value, parse).0)
  {
  }

  /** The pipeline reports "OK" exactly when the text parsed and every operation was dispatched. */
  lemma PipelineOk(text: string, parse: string -> Parsed)
    ensures Pipeline(text, parse).0 == "OK" <==>
      parse(text).Parsed? && Server.ProcessOpts(parse(text).value).stop.Completed?
  {
    match parse(text)
    case SyntaxError(m) =>
      assert |Pipeline(text, parse).0| > 2;
    case Parsed(v) =>
      var p := Server.ProcessOpts(v);
      if p.stop.NoLength? {
        assert |NoLengthText(p.stop.batch)| > 2;
      }
  }

  /**
   * The three failures are told apart by their first character: a syntax
   * error gives 'S', a rejected operation the ReferenceError's 'R', and a
   * batch without a length the TypeError's 'T'.
   */
  lemma PipelineFailuresDiffer(text: string, parse: string -> Parsed)
    ensures var out := Pipeline(text, parse).0;
      && |out| > 0
      && (parse(text).SyntaxError? <==> out[0] == 'S')
      && (parse(text).Parsed? && Server.ProcessOpts(parse(text).value).stop.Rejected? <==> out[0] == 'R')
      && (parse(text).Parsed? && Server.ProcessOpts(parse(text).value).stop.NoLength? <==> out[0] == 'T')
  {
    var out := Pipeline(text, parse).0;
    match parse(text)
    case SyntaxError(m) =>
      assert out[0] == 'S';
    case Parsed(v) =>
      var p := Server.ProcessOpts(v);
      match p.stop
      case Completed => assert out == "OK";
      case Rejected(_, _) => assert out[0] == 'R';
      case NoLength(b) =>
        assert out == NoLengthText(b);
  }

  /**
   * When `receive` rejects an operation, the response carries the
   * ReferenceError text whatever the validation error was, while the calls
   * of the operations before it have been made.
   */
  lemma ValidationMessageHidden(req: Request, parse: string -> Parsed, v: Value, show: Value -> string)
    requires BatchText(req).Some? && parse(BatchText(req).value) == Parsed(v)
    requires Server.ProcessOpts(v).stop.Rejected?
    ensures Text(Handle(req, parse).response.body) == ResNotDefined
    ensures Text(Handle(req, parse).response.body) != Server.Message(Server.ProcessOpts(v).stop.error, show)
    ensures Handle(req, parse).calls == Server.ProcessOpts(v).calls
  {
    MessageIsNotReferenceError(Server.ProcessOpts(v).stop.error, show);
  }

  /** No text `receive` throws is the ReferenceError text, whatever `JSON.stringify` makes of the value. */
  lemma MessageIsNotReferenceError(e: Server.OpError, show: Value -> string)
    ensures Server.Message(e, show) != ResNotDefined
  {
    var m := Server.Message(e, show);
    assert ResNotDefined[0] == 'R';
    match e
    case NotArray(_) => assert m[0] == 'o';
    case WrongArity(_) => assert m[0] == 'W';
    case MethodNotString(_) => assert m[0] == '1';
    case StatNotString(_) => assert m[0] == '2';
    case ValueNotNumber(_) => assert m[0] == '3';
    case RateNotNumber(_) => assert m[0] == '4';
    case Unsupported(_) => assert m[0] == 'M';
  }

  /**
   * GET removes every '/' from the decoded URL, those inside stat names
   * included: URLs that differ only in slashes are handled alike.
   */
  lemma GetIgnoresSlashes(url: string, body: string, parse: string -> Parsed)
    ensures Handle(Request("GET", url, body), parse) ==
            Handle(Request("GET", StripSlashes(url), body), parse)
  {
    StripSlashesIdentity(StripSlashes(url));
  }
}

=== FILE: server.dfy ===
/**
 * The server half of the relay (lib/server.js): the table of method codes,
 * the validation and dispatch of one operation (`receive`) and the loop over a
 * decoded batch (`processOpts`). The statistik backend is modelled as the
 * trace of calls made on it.
 */
module Server {

  import opened Wrappers
  import opened Values

  /** The operations of the backend's capability set. */
  datatype Method = Increment | Decrement | Timing | Gauge | Send

  /** The backend method name each operation is looked up by. */
  function Name(m: Method): string {
    match m
    case Increment => "increment"
    case Decrement => "decrement"
    case Timing => "timing"
    case Gauge => "gauge"
    case Send => "send"
  }

  /** The one-letter code that stands for an operation on the wire. */
  function Code(m: Method): string {
    match m
    case Increment => "i"
    case Decrement => "d"
    case Timing => "t"
    case Gauge => "g"
    case Send => "s"
  }

  /** The `methods` object: code to backend method name, entries in declaration order. */
  const Table: seq<(string, string)> :=
    [("i", "increment"), ("d", "decrement"), ("t", "timing"), ("g", "gauge"), ("s", "send")]

  /** Resolution of a code: exactly the codes of the five operations resolve, each to its own operation. */
  function MethodOf(code: string): (r: Option<Method>)
    ensures r.Some? ==> Code(r.value) == code
    ensures r.None? <==> forall m: Method :: Code(m) != code
  {
    if |code| != 1 then None
    else match code[0]
      case 'i' => Some(Increment)
      case 'd' => Some(Decrement)
      case 't' => Some(Timing)
      case 'g' => Some(Gauge)
      case 's' => Some(Send)
      case _ => None
  }

  lemma CodeRoundTrip(m: Method)
    ensures MethodOf(Code(m)) == Some(m)
  {
  }

  /**
   * The `for (abr in methods)` scan with its `valid` flag: walks the table in
   * order and stops at the first entry whose code equals `code`, yielding the
   * backend method name that replaces the code.
   */
  method Resolve(code: string) returns (valid: bool, name: string)
    ensures valid <==> MethodOf(code).Some?
    ensures valid ==> name == Name(MethodOf(code).value)
  {
    valid := false;
    name := code;
    var k := 0;
    while k < |Table|
      invariant 0 <= k <= |Table|
      invariant forall i :: 0 <= i < k ==> Table[i].0 != code
    {
      if Table[k].0 == code {
        name := Table[k].1;
        valid := true;
        return;
      }
      k := k + 1;
    }
    assert Table[0].0 != code && Table[1].0 != code && Table[2].0 != code;
    assert Table[3].0 != code && Table[4].0 != code;
  }

  /** Why `receive` rejects an operation; each carries the value its message names. */
  datatype OpError =
    | NotArray(op: Value)
    | WrongArity(op: Value)
    | MethodNotString(arg: Value)
    | StatNotString(arg: Value)
    | ValueNotNumber(arg: Value)
    | RateNotNumber(arg: Value)
    | Unsupported(code: string)

  /**
   * The text `receive` throws, given `JSON.stringify` as `show` (its text
   * is not part of this model).
   */
  function Message(e: OpError, show: Value -> string): string {
    match e
    case NotArray(op) => "op must be Array, is: " + show(op)
    case WrongArity(op) => "Wrong number of arguments: " + show(op)
    case MethodNotString(a) => "1st arg must be method, is " + show(a)
    case StatNotString(a) => "2nd arg must be stat, is: " + show(a)
    case ValueNotNumber(a) => "3rd arg must be number, is: " + show(a)
    case RateNotNumber(a) => "4rd arg must be number, is: " + show(a)
    case Unsupported(code) => "Method `" + code + "` not supported"
  }

  /** One call made on the backend: an operation and its positional arguments. */
  datatype Call = Call(op: Method, args: seq<Value>)

  /** The health counter bumped after every dispatched operation. */
  const Collected := Call(Increment, [JStr("client.stats.collected")])

  /** `typeof op[i]` is 'undefined' or 'number' (an index past the end reads as undefined). */
  predicate NumberOrAbsent(e: seq<Value>, i: nat) {
    i >= |e| || e[i].JUndef? || e[i].JNum?
  }

  /** The operation grammar: [code, stat, number?, number?] with a known code. */
  predicate WellFormed(op: Value) {
    && op.JArr?
    && 2 <= |op.elems| <= 4
    && op.elems[0].JStr?
    && op.elems[1].JStr?
    && NumberOrAbsent(op.elems, 2)
    && NumberOrAbsent(op.elems, 3)
    && MethodOf(op.elems[0].s).Some?
  }

  /** The number of checks `receive` applies. */
  const Checks := 7

  /** Whether check `k` of `receive`, in the order it applies them, passes. */
  predicate Passes(op: Value, k: nat) {
    var shaped := op.JArr? && 2 <= |op.elems| <= 4;
    if k == 0 then op.JArr?
    else if k == 1 then shaped
    else if k == 2 then shaped && op.elems[0].JStr?
    else if k == 3 then shaped && op.elems[1].JStr?
    else if k == 4 then shaped && NumberOrAbsent(op.elems, 2)
    else if k == 5 then shaped && NumberOrAbsent(op.elems, 3)
    else shaped && op.elems[0].JStr? && MethodOf(op.elems[0].s).Some?
  }

  /** The position in the check order of the check that reports `e`. */
  function Rank(e: OpError): nat {
    match e
    case NotArray(_) => 0
    case WrongArity(_) => 1
    case MethodNotString(_) => 2
    case StatNotString(_) => 3
    case ValueNotNumber(_) => 4
    case RateNotNumber(_) => 5
    case Unsupported(_) => 6
  }

  /** The value an error names is the one at the position its check inspects. */
  predicate Blames(e: OpError, op: Value) {
    match e
    case NotArray(v) => v == op
    case WrongArity(v) => v == op
    case MethodNotString(v) => op.JArr? && |op.elems| > 0 && v == op.elems[0]
    case StatNotString(v) => op.JArr? && |op.elems| > 1 && v == op.elems[1]
    case ValueNotNumber(v) => op.JArr? && |op.elems| > 2 && v == op.elems[2]
    case RateNotNumber(v) => op.JArr? && |op.elems| > 3 && v == op.elems[3]
    case Unsupported(c) => op.JArr? && |op.elems| > 0 && op.elems[0] == JStr(c)
  }

  /**
   * `statsc.receive`: validates one operation and, if it is well formed,
   * returns the two backend calls it makes, in order.
   */
  function Receive(op: Value): (r: Result<seq<Call>, OpError>)
    ensures r.Ok? <==> WellFormed(op)
    ensures r.Err? ==> Blames(r.error, op)
  {
    if !op.JArr? then Err(NotArray(op))
    else
      var e := op.elems;
      if |e| < 2 || |e| > 4 then Err(WrongArity(op))
      else if !e[0].JStr? then Err(MethodNotString(e[0]))
      else if !e[1].JStr? then Err(StatNotString(e[1]))
      else if !NumberOrAbsent(e, 2) then Err(ValueNotNumber(e[2]))
      else if !NumberOrAbsent(e, 3) then Err(RateNotNumber(e[3]))
      else match MethodOf(e[0].s)
        case None => Err(Unsupported(e[0].s))
        case Some(m) => Ok([Call(m, e[1..]), Collected])
  }

  /**
   * An accepted operation makes the call its code names, with the stat and
   * the optional arguments as given, and then bumps the health counter.
   */
  lemma Accepted(op: Value)
    requires WellFormed(op)
    ensures Receive(op).Ok?
    ensures var calls := Receive(op).value;
      && |calls| == 2
      && Code(calls[0].op) == op.elems[0].s
      && calls[0].args == op.elems[1..]
      && calls[1] == Collected
  {
  }

  /**
   * `receive` applies its checks in a fixed order and the first one that
   * fails decides the error; an operation passing all of them is accepted.
   */
  lemma FirstFailingCheckDecides(op: Value)
    ensures Receive(op).Ok? <==> forall k :: 0 <= k < Checks ==> Passes(op, k)
    ensures Receive(op).Err? ==>
      var e := Receive(op).error;
      && Rank(e) < Checks
      && !Passes(op, Rank(e))
      && (forall k :: 0 <= k < Rank(e) ==> Passes(op, k))
  {
    if Receive(op).Err? {
      assert !Passes(op, Rank(Receive(op).error));
    }
  }

  /** One rejection per check, nulls at positions 2 and 3, and the check order deciding `["x", 2]`. */
  lemma RejectionExamples()
    ensures Receive(JNum(1)) == Err(NotArray(JNum(1)))
    ensures Receive(JArr([JStr("i")])) == Err(WrongArity(JArr([JStr("i")])))
    ensures Receive(JArr([JStr("i"), JStr("a"), JStr("b"), JStr("c"), JStr("d")])).error.WrongArity?
    ensures Receive(JArr([JNum(1), JStr("a")])) == Err(MethodNotString(JNum(1)))
    ensures Receive(JArr([JStr("i"), JNum(2)])) == Err(StatNotString(JNum(2)))
    ensures Receive(JArr([JStr("g"), JStr("a"), JStr("x")])) == Err(ValueNotNumber(JStr("x")))
    ensures Receive(JArr([JStr("g"), JStr("a"), JNull])) == Err(ValueNotNumber(JNull))
    ensures Receive(JArr([JStr("g"), JStr("a"), JNum(1), JNull])) == Err(RateNotNumber(JNull))
    ensures Receive(JArr([JStr("x"), JStr("a")])) == Err(Unsupported("x"))
    ensures Receive(JArr([JStr("x"), JNum(2)])) == Err(StatNotString(JNum(2)))
  {
    assert MethodOf("x").None?;
  }

  /** Why the loop over a batch ended. */
  datatype Stop =
    | Completed                              // every operation was dispatched
    | Rejected(index: nat, error: OpError)   // `receive` threw on operation `index`
    | NoLength(batch: Value)                 // reading `.length` of null or undefined threw

  /** The backend calls made while processing a batch, and how processing ended. */
  datatype Processed = Processed(calls: seq<Call>, stop: Stop)

  /**
   * The calls the operations of `ops` make when each is received on its own,
   * in order; a rejected operation contributes none.
   */
  function Dispatched(ops: seq<Value>): (r: seq<Call>)
    ensures (forall i :: 0 <= i < |ops| ==> WellFormed(ops[i])) ==> |r| == 2 * |ops|
  {
    if |ops| == 0 then []
    else
      (match Receive(ops[0]) case Ok(calls) => calls case Err(_) => [])
      + Dispatched(ops[1..])
  }

  lemma {:induction false} DispatchedAppend(a: seq<Value>, b: seq<Value>)
    ensures Dispatched(a + b) == Dispatched(a) + Dispatched(b)
  {
    if |a| > 0 {
      assert (a + b)[1..] == a[1..] + b;
      DispatchedAppend(a[1..], b);
    } else {
      assert a + b == b;
    }
  }

  /** Renumbers where a run over a suffix stopped, as seen from `offset` operations earlier. */
  function Shift(s: Stop, offset: nat): Stop {
    match s
    case Rejected(k, e) => Rejected(k + offset, e)
    case _ => s
  }

  /**
   * The loop of `statsc.processOpts` over an array batch: operations are
   * received in order until `receive` rejects one.
   */
  function Run(ops: seq<Value>): Processed {
    if |ops| == 0 then Processed([], Completed)
    else
      match Receive(ops[0])
      case Err(e) => Processed([], Rejected(0, e))
      case Ok(calls) =>
        var rest := Run(ops[1..]);
        Processed(calls + rest.calls, Shift(rest.stop, 1))
  }

  /**
   * The loop stops at the first operation `receive` rejects; the calls of
   * the operations before it have been made, and no others. It completes
   * exactly when every operation is well formed.
   */
  lemma {:induction false} RunStopsAtFirstRejection(ops: seq<Value>)
    ensures !Run(ops).stop.NoLength?
    ensures Run(ops).stop.Completed? <==> forall i :: 0 <= i < |ops| ==> WellFormed(ops[i])
    ensures Run(ops).stop.Completed? ==> Run(ops).calls == Dispatched(ops)
    ensures Run(ops).stop.Rejected? ==>
      var k := Run(ops).stop.index;
      && k < |ops|
      && (forall i :: 0 <= i < k ==> WellFormed(ops[i]))
      && Receive(ops[k]) == Err(Run(ops).stop.error)
      && Run(ops).calls == Dispatched(ops[..k])
  {
    if |ops| > 0 && Receive(ops[0]).Ok? {
      var rest := ops[1..];
      RunStopsAtFirstRejection(rest);
      assert forall i :: 1 <= i < |ops| ==> rest[i - 1] == ops[i];
      if Run(rest).stop.Rejected? {
        var k := Run(rest).stop.index;
        assert ops[..k + 1][1..] == rest[..k];
      }
    }
  }

  lemma Associative<T>(a: seq<T>, b: seq<T>, c: seq<T>)
    ensures a + (b + c) == (a + b) + c
  {
  }

  /** Processing a batch is processing its parts one after the other. */
  lemma {:induction false} RunAppend(a: seq<Value>, b: seq<Value>)
    requires forall i :: 0 <= i < |a| ==> WellFormed(a[i])
    ensures Run(a + b) == Processed(Dispatched(a) + Run(b).calls, Shift(Run(b).stop, |a|))
  {
    if |a| == 0 {
      assert a + b == b;
    } else {
      forall i | 0 <= i < |a[1..]| ensures WellFormed(a[1..][i]) {
        assert a[1..][i] == a[i + 1];
      }
      RunAppend(a[1..], b);
      RunAppendStep(a, b, Run(b));
    }
  }

  /** The inductive step of `RunAppend`: one well-formed operation in front of `b`, processed as `later`. */
  lemma RunAppendStep(a: seq<Value>, b: seq<Value>, later: Processed)
    requires |a| > 0 && WellFormed(a[0])
    requires Run(a[1..] + b) == Processed(Dispatched(a[1..]) + later.calls, Shift(later.stop, |a| - 1))
    ensures Run(a + b) == Processed(Dispatched(a) + later.calls, Shift(later.stop, |a|))
  {
    RunHead(a, b);
    DispatchedCons(a);
    Associative(Receive(a[0]).value, Dispatched(a[1..]), later.calls);
    ShiftTwice(later.stop, |a| - 1, |a|);
  }

  /** Processing `a + b` starts with the first operation of `a`. */
  lemma RunHead(a: seq<Value>, b: seq<Value>)
    requires |a| > 0 && WellFormed(a[0])
    ensures Run(a + b) == Processed(Receive(a[0]).value + Run(a[1..] + b).calls, Shift(Run(a[1..] + b).stop, 1))
  {
    assert (a + b)[0] == a[0];
    assert (a + b)[1..] == a[1..] + b;
  }

  lemma DispatchedCons(a: seq<Value>)
    requires |a| > 0 && WellFormed(a[0])
    ensures Dispatched(a) == Receive(a[0]).value + Dispatched(a[1..])
  {
  }

  lemma ShiftTwice(s: Stop, n: nat, m: nat)
    requires m == n + 1
    ensures Shift(Shift(s, n), 1) == Shift(s, m)
  {
  }

  /** A rejected operation ends the batch: nothing after it is looked at. */
  lemma NothingAfterRejection(ops: seq<Value>, tail: seq<Value>)
    requires Run(ops).stop.Rejected?
    ensures var k := Run(ops).stop.index; k < |ops| && Run(ops[..k + 1] + tail) == Run(ops)
  {
    var k := Run(ops).stop.index;
    RunStopsAtFirstRejection(ops);
    SplitAt(ops, k, tail);
    RunRejectsFirst(ops[k], tail);
    RunRejectsFirst(ops[k], ops[k + 1..]);
    RunAppend(ops[..k], [ops[k]] + tail);
    RunAppend(ops[..k], [ops[k]] + ops[k + 1..]);
  }

  lemma SplitAt<T>(s: seq<T>, k: nat, tail: seq<T>)
    requires k < |s|
    ensures s[..k + 1] + tail == s[..k] + ([s[k]] + tail)
    ensures s == s[..k] + ([s[k]] + s[k + 1..])
  {
  }

  lemma RunRejectsFirst(op: Value, rest: seq<Value>)
    requires Receive(op).Err?
    ensures Run([op] + rest) == Processed([], Rejected(0, Receive(op).error))
  {
    assert ([op] + rest)[0] == op;
  }

  /**
   * `statsc.processOpts` on whatever `JSON.parse` returned. A batch that is
   * not an array is walked through its `length`: null and undefined have
   * none and the read throws; a string is walked character by character, and
   * its first character, not being an array, is rejected; numbers, booleans
   * and objects have an undefined length, so nothing is dispatched.
   */
  function ProcessOpts(batch: Value): (p: Processed)
    ensures batch.JArr? ==> p == Run(batch.elems)
    ensures !batch.JArr? ==> p.calls == []
    ensures p.stop.NoLength? <==> Nullish(batch)
    ensures p.stop.Rejected? && !batch.JArr? ==> batch.JStr? && |batch.s| > 0 && p.stop == Rejected(0, NotArray(JStr(batch.s[..1])))
    ensures batch.JStr? && |batch.s| > 0 ==> p == Processed([], Rejected(0, NotArray(JStr(batch.s[..1]))))
    ensures batch.JNum? || batch.JBool? || batch.JObj? || batch == JStr("") ==> p == Processed([], Completed)
  {
    match batch
    case JArr(ops) => RunStopsAtFirstRejection(ops); Run(ops)
    case JNull => Processed([], NoLength(batch))
    case JUndef => Processed([], NoLength(batch))
    case JStr(s) =>
      if |s| == 0 then Processed([], Completed)
      else Processed([], Rejected(0, NotArray(JStr(s[..1]))))
    case _ => Processed([], Completed)
  }
}

=== FILE: values.dfy ===
/**
 * JavaScript values as the relay sees them: the JSON values that travel on the
 * wire, plus `undefined`, which only ever exists on the client side (an omitted
 * argument of an emit call).
 */
module Values {

  import opened Wrappers

  datatype Value =
    | JUndef
    | JNull
    | JBool(b: bool)
    | JNum(n: int)
    | JStr(s: string)
    | JArr(elems: seq<Value>)
    | JObj(fields: seq<(string, Value)>)

  /** The `x == null` test of JavaScript: true of `null` and `undefined` only. */
  predicate Nullish(v: Value) {
    v.JUndef? || v.JNull?
  }

  /** The entries of `t` that are not nullish, in their original order. */
  function Present(t: seq<Value>): (r: seq<Value>)
    ensures |r| <= |t|
    ensures forall i :: 0 <= i < |r| ==> !Nullish(r[i]) && r[i] in t
    ensures (forall i :: 0 <= i < |t| ==> !Nullish(t[i])) ==> r == t
  {
    if |t| == 0 then []
    else (if Nullish(t[0]) then [] else [t[0]]) + Present(t[1..])
  }

  lemma {:induction false} PresentAppend(a: seq<Value>, b: seq<Value>)
    ensures Present(a + b) == Present(a) + Present(b)
  {
    if |a| == 0 {
      assert a + b == b;
    } else {
      var head := if Nullish(a[0]) then [] else [a[0]];
      calc {
        Present(a + b);
        { assert (a + b)[0] == a[0]; assert (a + b)[1..] == a[1..] + b; }
        head + Present(a[1..] + b);
        { PresentAppend(a[1..], b); }
        head + (Present(a[1..]) + Present(b));
        head + Present(a[1..]) + Present(b);
      }
    }
  }

  /** A value JSON can carry: no `undefined` anywhere inside it. */
  predicate Wire(v: Value) {
    match v
    case JUndef => false
    case JArr(es) => forall i :: 0 <= i < |es| ==> Wire(es[i])
    case JObj(fs) => forall i :: 0 <= i < |fs| ==> Wire(fs[i].1)
    case _ => true
  }

  /** Keeps the fields that were not marked as dropped, in order. */
  function Kept(os: seq<Option<(string, Value)>>): (r: seq<(string, Value)>)
    ensures forall x :: x in r ==> Some(x) in os
    ensures (forall i :: 0 <= i < |os| ==> os[i].Some?) ==> |r| == |os| && forall i :: 0 <= i < |r| ==> Some(r[i]) == os[i]
  {
    if |os| == 0 then []
    else (if os[0].Some? then [os[0].value] else []) + Kept(os[1..])
  }

  /**
   * What a value becomes after `JSON.stringify` and a later `JSON.parse`,
   * for a value that sits inside an array: `undefined` turns into `null`
   * in arrays and disappears as an object field.
   */
  function Encode(v: Value): (r: Value)
    ensures Wire(r)
    ensures Nullish(v) <==> r.JNull?
  {
    match v
    case JUndef => JNull
    case JArr(es) => JArr(seq(|es|, i requires 0 <= i < |es| => Encode(es[i])))
    case JObj(fs) =>
      var os := seq(|fs|, i requires 0 <= i < |fs| =>
        if fs[i].1.JUndef? then None else Some((fs[i].0, Encode(fs[i].1))));
      var kept := Kept(os);
      assert forall i :: 0 <= i < |kept| ==> Wire(kept[i].1) by {
        forall i | 0 <= i < |kept| ensures Wire(kept[i].1) {
          assert Some(kept[i]) in os;
        }
      }
      JObj(kept)
    case _ => v
  }

  /** Encoding applied to each entry of a tuple. */
  function EncodeAll(t: seq<Value>): (r: seq<Value>)
    ensures |r| == |t|
    ensures Encode(JArr(t)) == JArr(r)
  {
    seq(|t|, i requires 0 <= i < |t| => Encode(t[i]))
  }

  lemma EncodeAllAppend(a: seq<Value>, b: seq<Value>)
    ensures EncodeAll(a + b) == EncodeAll(a) + EncodeAll(b)
  {
  }

  /** Encoding a tuple keeps which entries are nullish, so its present entries are the encoded present entries. */
  lemma {:induction false} PresentEncodeAll(t: seq<Value>)
    ensures Present(EncodeAll(t)) == EncodeAll(Present(t))
  {
    if |t| > 0 {
      var head := if Nullish(t[0]) then [] else [t[0]];
      calc {
        Present(EncodeAll(t));
        { assert EncodeAll(t) == [Encode(t[0])] + EncodeAll(t[1..]); }
        Present([Encode(t[0])] + EncodeAll(t[1..]));
        { PresentAppend([Encode(t[0])], EncodeAll(t[1..])); }
        Present([Encode(t[0])]) + Present(EncodeAll(t[1..]));
        { PresentEncodeAll(t[1..]); PresentEncodeOne(t[0]); }
        EncodeAll(head) + EncodeAll(Present(t[1..]));
        { EncodeAllAppend(head, Present(t[1..])); }
        EncodeAll(head + Present(t[1..]));
      }
    }
  }

  lemma PresentEncodeOne(v: Value)
    ensures Present([Encode(v)]) == EncodeAll(if Nullish(v) then [] else [v])
  {
    assert [Encode(v)][1..] == [];
  }

  /** A wire value survives encoding unchanged, so encoding is idempotent. */
  lemma {:induction false} EncodeFixesWire(v: Value)
    requires Wire(v)
    ensures Encode(v) == v
  {
    match v
    case JArr(es) =>
      forall i | 0 <= i < |es| ensures Encode(es[i]) == es[i] {
        EncodeFixesWire(es[i]);
      }
    case JObj(fs) =>
      var os := seq(|fs|, i requires 0 <= i < |fs| =>
        if fs[i].1.JUndef? then None else Some((fs[i].0, Encode(fs[i].1))));
      forall i | 0 <= i < |fs| ensures os[i] == Some(fs[i]) {
        EncodeFixesWire(fs[i].1);
      }
    case _ =>
  }

}

=== FILE: wrappers.dfy ===
/** Option and Result, the failure-carrying datatypes the rest of the model uses. */
module Wrappers {

  /** A value that may be missing. */
  datatype Option<+T> = None | Some(value: T)

  /** Either a computed value or the error that stopped the computation. */
  datatype Result<+T, +E> = Ok(value: T) | Err(error: E)
}
